=== FILE: README.md ===
# Confirmation-field autofill, modelled in Dafny

The content script fills confirmation text fields in a web console: when an
enabled, editable, empty text field announces (through its placeholder, its
`aria-label`, or the text of the element its `aria-labelledby` names) that it
wants the phrase "permanently delete", the script writes that phrase into it in
a way the page's UI framework notices, and fires `input` and `change` events as
if a user had typed it. It re-examines the page whenever nodes are added and
every 500 ms.

The model takes the DOM away and keeps the decisions:

- `Dom`: a field is an immutable record (`disabled`, `readOnly`, `value`,
  `placeholder`, `aria-label`, `aria-labelledby`, the framework's tracked value
  and the element kind). The page's element texts are a map from element id to
  `textContent`. Side effects are a trace of `Step`s: primitive value writes,
  tracker resets and event dispatches.
- `Text`: ASCII lower-casing, and `includes` proved equal to a reference
  definition of substring containment.
- `Writer`: `autofillField` as a function returning the new field, the steps it
  performed and its boolean answer. A `null` reference is `None`.
- `Matcher`: the rule table `AUTOFILL_RULES` as a sequence, the rule test,
  first-match selection and `checkAndAutofill`. The sequence follows
  `Object.values` order, which is declaration order for keys that are not
  integer-like.
- `Scan`: the pure parts of the observer and the timers. Nodes are an abstract
  tree. The model covers which fields an added node contributes, which fields the
  periodic scan and the start-up sweep visit, and what a batch of checks does to
  the page's fields, keyed by id. The periodic scan's loop is a method proved
  equal to that batch.

Candidate selection is not the same on every path:

- The mutation callback checks an added node that is an `INPUT` of any type or a
  `TEXTAREA`. The text-or-password restriction applies only to the node's
  descendants, and to the periodic scan and the start-up sweep.
- The selector matches the `type` attribute, so an `<input>` without one is not
  selected by the descendant query, the periodic scan or the start-up sweep.
  HTML compares that attribute's value without regard to letter case.

## Model

| member | source | states |
|---|---|---|
| Text.Includes | content.js:76-78 | `includes` holds exactly when the needle occurs at some offset of the text; the empty needle occurs everywhere |
| Text.Lower | content.js:63-71 | the lower-cased text has no upper-case ASCII letter left, and a text with none comes back unchanged |
| Text.LowerIgnoresCase | content.js:63-71 | two texts lower-case to the same text exactly when they differ only in the letter case of ASCII letters |
| Text.LowerIsLower | content.js:63-71 | a lower-cased text is entirely lower case, and lower-casing it again changes nothing |
| Text.IncludesOnlyLower | content.js:76-78 | anything found inside a lower-case text is itself lower case |
| Writer.EligibleIffOnlyEmptyRefused | content.js:58 | a field passes the check's guard (enabled, editable, empty) exactly when the writer's guard refuses it nothing but the empty text |
| Writer.Refuses | content.js:19 | the writer's guard refuses a field that already holds the text; for a field the check's guard lets through, it refuses exactly the empty text |
| Writer.WriteProtocol | content.js:26-49 | the trace is a value write, then (with a tracker) a reset and a second write, then `input` and `change` last, all bubbling, cancelable and aimed at the field |
| Writer.AutofillField | content.js:18-52 | null: false, nothing written, no events; disabled, read-only or already holding the text: no write, no events, answer is whether the value equals the text; otherwise the value becomes the text, the tracker (if any) is reset to "", nothing else about the field changes, the full write-then-notify protocol runs, and the answer is true; in the model, where nothing else writes the field, the answer says whether the field holds the text |
| Writer.AutofillFieldIdempotent | content.js:19-20 | a second identical call writes nothing, dispatches nothing and gives the same answer as the first |
| Writer.WriteProtocolEvents | content.js:42-49 | a write dispatches exactly two events, `input` then `change`, both bubbling, cancelable and targeted at the field |
| Writer.WriteProtocolOrder | content.js:26-49 | the protocol begins with a value write, every step targets the field, and no value write or tracker reset follows an event |
| Writer.AutofillFieldAsWritten | content.js:24-30 | as written, the call throws exactly when the guard lets through a textarea, or a file input with a non-empty text; on every other input it agrees with the corrected writer |
| Writer.TextAreaWriteThrows | content.js:24-27 | an empty, enabled textarea makes the written code throw before writing, while the corrected writer fills it |
| Writer.FileInputWriteThrows | content.js:24-27 | an empty, enabled `<input type="File">` labelled "permanently delete" makes the written code throw before writing |
| Matcher.LabelledByText | content.js:65-73 | labelled-by text is "" unless the attribute is present, not empty and names an existing element; then it is that element's text, lower-cased: lower case and equal to the text up to ASCII letter case |
| Matcher.IdListNeverResolves | content.js:65-73 | the attribute is looked up whole, so on a page whose ids hold no space a space-separated id list gives "" |
| Matcher.RuleMatches | content.js:76-78 | a rule matches exactly when its text occurs, by the reference substring definition, in the lower-cased placeholder, label or labelled-by text |
| Matcher.RuleMatchesIgnoresCase | content.js:63-78 | two fields whose placeholders and labels differ only in ASCII letter case, with the same labelled-by reference, match the same rules |
| Matcher.FirstMatch | content.js:62-83 | the chosen rule matches and no earlier rule does; there is no choice exactly when no rule matches |
| Matcher.CheckWith | content.js:57-86 | ineligible or unmatched fields are left alone with answer false; otherwise the first matching rule's text is written by the writer's protocol and nothing else changes; the answer is true exactly when an eligible field matches some rule |
| Matcher.CheckAndAutofill | content.js:8-13 | with the one-rule table, the answer is true exactly for an eligible field that the "permanently delete" rule matches, and the value is then "permanently delete"; otherwise nothing changes |
| Matcher.CheckConverges | content.js:58-60 | re-checking the field a check produced changes nothing and dispatches nothing |
| Matcher.FilledFieldIsIgnored | content.js:58-60 | a field holding any text, the rule's own text included, is reported false and left alone |
| Matcher.PermanentlyDeleteIsFilled | content.js:62-82 | an eligible field whose placeholder, label or labelled-by text contains "permanently delete" in any letter case is filled with it by the full protocol |
| Matcher.MissingTextsCountAsEmpty | content.js:63-73 | a missing placeholder, missing label and unresolved labelled-by reference all count as "", so only a rule with empty text matches |
| Matcher.UpperCaseRuleNeverMatches | content.js:63-78 | the rule text is not lower-cased, so a rule containing an upper-case letter never matches |
| Matcher.FirstMatchAppend | content.js:80-82 | once a rule of the table matches, rules appended after the table do not change the choice |
| Matcher.LaterRulesIgnored | content.js:80-82 | once a rule of the table matches, rules appended after the table do not change the outcome of the check |
| Matcher.EarlierRuleWins | content.js:62-82 | of two rules that both match an eligible field, the one `Object.values` visits first supplies the written text |
| Scan.IsScanKind | content.js:102 | the selector picks exactly textareas and inputs whose `type` attribute equals "text" or "password" up to ASCII letter case; an input without the attribute is not picked |
| Scan.KeepScanCandidates | content.js:102 | exactly the listed fields that are textareas, or inputs whose type attribute is "text" or "password" in any letter case, are kept |
| Scan.SelectOnAdd | content.js:95-105 | an added node contributes itself when it is an input of any type or a textarea, and the candidates below it otherwise; non-element nodes contribute nothing |
| Scan.SelectOnMutations | content.js:93-107 | a field is checked for a batch of added nodes exactly when one of the added nodes contributes it |
| Scan.DocumentCandidates | content.js:118 | the document-wide query yields exactly the candidate-kind fields of the document |
| Scan.KeepVisible | content.js:120 | exactly the listed fields whose `offsetParent` is not null are kept |
| Scan.RunChecks | content.js:119-123 | checks in sequence keep every field's identity, leave unlisted fields alone and aim every step at a listed field |
| Scan.RunChecksAppend | content.js:119-123 | two batches of checks run one after the other are the same as their concatenation |
| Scan.RunChecksTwice | content.js:117-124 | repeating a batch of checks on the page it produced changes nothing and dispatches nothing, so overlapping scans converge |
| Scan.RunChecksFills | content.js:103-105 | a listed field that was eligible and matched ends with the first matching rule's text, even when listed many times |
| Scan.RunChecksWritesOnce | content.js:103-105 | a listed field that was eligible and matched gets, across the batch, exactly one run of the write protocol with the first matching rule's text, however often it is listed (none for a rule whose text is "") |
| Scan.RunChecksNotifiesOnce | content.js:103-105 | such a field gets exactly one `input` then one `change` event across the batch (none for a rule whose text is "") |
| Scan.OnlyMatchingFieldsChange | content.js:103-105 | only fields that were eligible and matched a rule change or receive any step; every other field keeps its value and gets no event |
| Scan.PeriodicTick | content.js:117-124 | the tick's loop, which skips invisible or non-empty fields as it reaches them, ends in the same page and steps as checking the visible candidates in document order |
| Scan.PeriodicTickFills | content.js:117-124 | a selected field whose `offsetParent` is not null, if eligible and matched, ends the tick with the first matching rule's text and one `input` then one `change` event |
| Scan.StartupSweep | content.js:138-141 | the start-up sweep changes only the document's candidate fields; a field outside the document tree is left alone |
| Scan.StartupSweepFills | content.js:138-141 | a selected field, visible or not, that was eligible and matched ends the sweep with the first matching rule's text and one `input` then one `change` event |
| Scan.OnNodesAdded | content.js:92-108 | the checks scheduled for added nodes change only fields those nodes contribute |
| Scan.OnNodesAddedFills | content.js:92-108 | a field an added node contributes, if eligible, matched and not a file input, ends the batch with the first matching rule's text and one `input` then one `change` event, even when several added nodes contribute it |

## Findings

| source | as written | input that shows it | evidently intended | confidence | as-written member | corrected member |
|---|---|---|---|---|---|---|
| content.js:24-27 | the value setter is always taken from `HTMLInputElement.prototype` and called on the field. The field may be a textarea, and the setter's receiver check then throws `TypeError` before anything is written or dispatched | an enabled, empty `<textarea placeholder="Type permanently delete to confirm">` | the textarea is filled with "permanently delete" and gets `input` and `change`, like an input. Textareas are candidates on lines 97, 102 and 118 | not executed; relies on the receiver check that Web IDL attribute setters perform | Writer.AutofillFieldAsWritten | Writer.AutofillField |

The rest of the model uses the corrected writer. `Writer.TextAreaWriteThrows`
exhibits the input. The as-written writer also throws on a file input, which
`Writer.FileInputWriteThrows` exhibits. That case is listed under "Left out",
not here, because no intended behaviour for it can be read off the code.

## Left out

- The `MutationObserver` subscription, the 100 ms, 500 ms and 1000 ms timers, and the `readyState`/`DOMContentLoaded` start-up. These are event-loop scheduling. The model keeps what each callback selects and what the checks do, in the order the callbacks would run them.
- Lookup of the native setter and its fallback to `input.value = text`. The model writes through the primitive setter. The fallback would route the second write through the framework's instance setter and leave the tracked value at the text, not at "".
- Construction of the event objects and the redefinition of their `target`. Each dispatch is a `Dispatch` step carrying the kind, the target field and the bubbles and cancelable flags.
- `document.getElementById` and `textContent`. A map from element id to text stands in for them, with one element per id and text fixed during a batch.
- `offsetParent` and layout. The caller supplies visibility as a set of field ids, and a write does not change it.
- Unicode lower-casing. `toLowerCase` is modelled on ASCII letters only.
- Value sanitization of input types that sanitize, such as number, range, color or email. The writer assumes the value reads back as written.
- Writer.AutofillField: does not model the rejection by an `<input type="file">` of any non-empty value, and fills such a field like a text input. Only the mutation path hands a file input to the writer, since an added `INPUT` of any type is checked. `Writer.AutofillFieldAsWritten` models the throw.
- Listeners run by the two dispatches (content.js:45 and 49) run synchronously inside the call. The model assumes they change no field, no label text and no visibility. content.js:51 returns true without reading the value back, so the answer and the field's value agree only under that assumption.
- The effect on the scans of the exceptions that `Writer.AutofillFieldAsWritten` models. A throw inside the periodic scan's `forEach` (content.js:119-123) ends that tick early. A throw inside the start-up sweep's `forEach` (content.js:139-140) ends the sweep early. On the mutation path each field's check runs in its own timer (content.js:98 and 104), so a throw ends only that check. The scans are modelled with the corrected writer.
- Splitting `aria-labelledby` into an id list. content.js:69 looks the whole attribute up as one id, and so does the model (`Matcher.IdListNeverResolves`).
- Attribute changes between a mutation and its check. The mutation callback reads the tag and the `type` attribute when the nodes are added (content.js:97 and 102), and each check reads the field 100 ms later (content.js:98 and 104). The model selects and checks against one page state, as if the page did not change in between.
- Children of an added `<input>` or `<textarea>`. content.js:102 also queries below such a node, but a field node in the model has no children, so that query finds nothing.
- Shadow roots, which `querySelectorAll` does not enter. The node tree has none.

=== FILE: dom.dfy ===
/** The slice of the page the engine reads and writes: candidate fields as
    immutable records, and the trace of side effects a write performs. */
module Dom {

  datatype Option<+T> = None | Some(value: T) {

    /** The wrapped value, or `default` when there is none. */
    function GetOr(default: T): T
    {
      match this
      case Some(v) => v
      case None => default
    }
  }

  /** Identity of an element in the page. */
  type FieldId = nat

  /** An `<input>` element, with its `type` attribute as written (`None` when
      the attribute is absent), or a `<textarea>` element. */
  datatype ElementKind = Input(typeAttribute: Option<string>) | TextArea

  /** A candidate field as the engine sees it. `ariaLabel` and
      `ariaLabelledBy` are the attributes (`None` when absent); `tracker` is
      the value cached by the UI framework's value tracker, `None` when the
      element carries no tracker. */
  datatype Field = Field(
    id: FieldId,
    kind: ElementKind,
    disabled: bool,
    readOnly: bool,
    value: string,
    placeholder: string,
    ariaLabel: Option<string>,
    ariaLabelledBy: Option<string>,
    tracker: Option<string>)

  /** `document.getElementById(id).textContent` for every element id of the page. */
  type LabelIndex = map<string, string>

  /** Every field of the page, keyed by its id. */
  type Store = map<FieldId, Field>

  /** Each field sits under its own id. */
  predicate WellKeyed(store: Store)
  {
    forall k :: k in store ==> store[k].id == k
  }

  datatype EventKind = InputType | ChangeType

  /** One side effect on a field: a write through the element's primitive
      value setter, a reset of the framework's tracked value to "", or the
      dispatch of a synthetic event whose `target` is the field. */
  datatype Step =
    | SetValue(target: FieldId, text: string)
    | ResetTracker(target: FieldId)
    | Dispatch(kind: EventKind, target: FieldId, bubbles: bool, cancelable: bool)

  /** The events dispatched by a trace, in order. */
  function Dispatched(steps: seq<Step>): seq<Step>
  {
    if |steps| == 0 then []
    else (if steps[0].Dispatch? then [steps[0]] else []) + Dispatched(steps[1..])
  }

  /** The events of two traces run one after the other. */
  lemma {:induction false} DispatchedAppend(a: seq<Step>, b: seq<Step>)
    ensures Dispatched(a + b) == Dispatched(a) + Dispatched(b)
    decreases |a|
  {
    if |a| > 0 {
      var head := if a[0].Dispatch? then [a[0]] else [];
      assert (a + b)[0] == a[0];
      assert (a + b)[1..] == a[1..] + b;
      DispatchedAppend(a[1..], b);
      assert Dispatched(a + b) == head + (Dispatched(a[1..]) + Dispatched(b));
      assert head + (Dispatched(a[1..]) + Dispatched(b)) == (head + Dispatched(a[1..])) + Dispatched(b);
    } else {
      assert a + b == b;
    }
  }

  /** The steps of a trace aimed at field `k`, in order. */
  function StepsAt(steps: seq<Step>, k: FieldId): seq<Step>
  {
    if |steps| == 0 then []
    else (if steps[0].target == k then [steps[0]] else []) + StepsAt(steps[1..], k)
  }

  /** The steps at `k` of two traces run one after the other. */
  lemma {:induction false} StepsAtAppend(a: seq<Step>, b: seq<Step>, k: FieldId)
    ensures StepsAt(a + b, k) == StepsAt(a, k) + StepsAt(b, k)
    decreases |a|
  {
    if |a| > 0 {
      var head := if a[0].target == k then [a[0]] else [];
      assert (a + b)[0] == a[0];
      assert (a + b)[1..] == a[1..] + b;
      StepsAtAppend(a[1..], b, k);
      assert head + (StepsAt(a[1..], k) + StepsAt(b, k)) == (head + StepsAt(a[1..], k)) + StepsAt(b, k);
    } else {
      assert a + b == b;
    }
  }

  /** A trace aimed entirely elsewhere has no step at `k`; one aimed entirely
      at `k` is all steps at `k`. */
  lemma {:induction false} StepsAtUniform(steps: seq<Step>, k: FieldId)
    ensures (forall s :: s in steps ==> s.target != k) ==> StepsAt(steps, k) == []
    ensures (forall s :: s in steps ==> s.target == k) ==> StepsAt(steps, k) == steps
    decreases |steps|
  {
    if |steps| > 0 {
      assert forall s :: s in steps[1..] ==> s in steps;
      StepsAtUniform(steps[1..], k);
      assert steps == [steps[0]] + steps[1..];
    }
  }

  /** The eligibility precondition: enabled, editable and empty. The source
      tests the value twice, for truthiness and against "", and both say the
      same of a string: it is not empty. */
  predicate Eligible(f: Field)
  {
    !f.disabled && !f.readOnly && f.value == ""
  }

  /** `a` and `b` differ at most in their value and tracked value. */
  predicate SameAttributes(a: Field, b: Field)
  {
    a.(value := b.value, tracker := b.tracker) == b
  }
}

=== FILE: matcher.dfy ===
/** The field matcher: the rule table and `checkAndAutofill(input)`. */
module Matcher {
  import opened Text
  import opened Dom
  import opened Writer

  /** A rule: the text a confirmation field asks for, under the rule's name. */
  datatype Rule = Rule(name: string, requiredText: string)

  /** `AUTOFILL_RULES`, in `Object.values` order: declaration order for
      keys that are not integer-like, as here. */
  const AutofillRules: seq<Rule> := [Rule("s3-delete", "permanently delete")]

  /** The lower-cased placeholder. */
  function PlaceholderText(f: Field): string
  {
    Lower(f.placeholder)
  }

  /** The lower-cased `aria-label` attribute, "" when it is absent. */
  function AriaLabelText(f: Field): string
  {
    Lower(f.ariaLabel.GetOr(""))
  }

  /** The lower-cased text of the element named by `aria-labelledby`. An
      absent or empty attribute is not looked up, and an id naming no element
      resolves to nothing; both give "". */
  function LabelledByText(f: Field, labels: LabelIndex): (r: string)
    ensures r != "" ==> f.ariaLabelledBy.Some? && f.ariaLabelledBy.value in labels
    // a resolved reference gives the element's text, lower-cased
    ensures f.ariaLabelledBy.Some? && f.ariaLabelledBy.value != "" && f.ariaLabelledBy.value in labels ==>
      IsLowerString(r) && SameUpToCase(r, labels[f.ariaLabelledBy.value])
  {
    match f.ariaLabelledBy
    case None => ""
    case Some(ref) =>
      if ref != "" && ref in labels then
        LowerIsLower(labels[ref]);
        LowerIgnoresCase(Lower(labels[ref]), labels[ref]);
        Lower(labels[ref])
      else ""
  }

  /** The attribute is looked up whole, as one id. HTML ids hold no
      whitespace, so an id list such as "title hint" never resolves and its
      elements' texts are not consulted. */
  lemma IdListNeverResolves(f: Field, labels: LabelIndex)
    requires forall id :: id in labels ==> ' ' !in id
    requires f.ariaLabelledBy.Some? && ' ' in f.ariaLabelledBy.value
    ensures LabelledByText(f, labels) == ""
  {
  }

  /** `rule` matches `f` when one of the three lower-cased texts contains the
      rule's text, which itself is not lower-cased. */
  predicate RuleMatches(rule: Rule, f: Field, labels: LabelIndex): (r: bool)
    ensures r <==>
      || IsSubstring(rule.requiredText, PlaceholderText(f))
      || IsSubstring(rule.requiredText, AriaLabelText(f))
      || IsSubstring(rule.requiredText, LabelledByText(f, labels))
  {
    || Includes(PlaceholderText(f), rule.requiredText)
    || Includes(AriaLabelText(f), rule.requiredText)
    || Includes(LabelledByText(f, labels), rule.requiredText)
  }

  /** Some rule of the table matches `f`. */
  predicate AnyRuleMatches(rules: seq<Rule>, f: Field, labels: LabelIndex)
  {
    exists k :: 0 <= k < |rules| && RuleMatches(rules[k], f, labels)
  }

  /** The position of the first rule that matches `f`, if any. */
  function FirstMatch(rules: seq<Rule>, f: Field, labels: LabelIndex): (r: Option<nat>)
    ensures r.Some? ==>
      && r.value < |rules|
      && RuleMatches(rules[r.value], f, labels)
      && forall j :: 0 <= j < r.value ==> !RuleMatches(rules[j], f, labels)
    ensures r.None? <==> !AnyRuleMatches(rules, f, labels)
    decreases |rules|
  {
    if |rules| == 0 then None
    else if RuleMatches(rules[0], f, labels) then Some(0)
    else
      match FirstMatch(rules[1..], f, labels)
      case None =>
        assert forall k :: 1 <= k < |rules| ==> rules[k] == rules[1..][k - 1];
        None
      case Some(k) =>
        assert forall j :: 1 <= j < k + 1 ==> rules[j] == rules[1..][j - 1];
        Some(k + 1)
  }

  /** The text the first matching rule asks `f` for. */
  function FirstMatchText(rules: seq<Rule>, f: Field, labels: LabelIndex): string
    requires FirstMatch(rules, f, labels).Some?
  {
    rules[FirstMatch(rules, f, labels).value].requiredText
  }

  /** What `checkAndAutofill` did to the field and what it returned. */
  datatype CheckResult = CheckResult(field: Field, steps: seq<Step>, filled: bool)

  /** `checkAndAutofill(input)` over the rule table `rules`. */
  function CheckWith(rules: seq<Rule>, f: Field, labels: LabelIndex): (r: CheckResult)
    // an ineligible field is left alone
    ensures !Eligible(f) ==> r == CheckResult(f, [], false)
    // so is a field no rule matches
    ensures !AnyRuleMatches(rules, f, labels) ==> r == CheckResult(f, [], false)
    // the first matching rule alone decides: its text is written
    ensures Eligible(f) && FirstMatch(rules, f, labels).Some? ==>
      var text := FirstMatchText(rules, f, labels);
      && r.field.value == text
      && SameAttributes(f, r.field)
      && r.steps == (if text == "" then [] else WriteProtocol(f, text))
    // the answer is true exactly when an eligible field matched a rule
    ensures r.filled <==> Eligible(f) && AnyRuleMatches(rules, f, labels)
    // the field keeps its identity and every step is aimed at it
    ensures r.field.id == f.id
    ensures forall s :: s in r.steps ==> s.target == f.id
  {
    if !Eligible(f) then CheckResult(f, [], false)
    else
      match FirstMatch(rules, f, labels)
      case None => CheckResult(f, [], false)
      case Some(k) =>
        var w := AutofillField(Some(f), rules[k].requiredText);
        CheckResult(w.field.value, w.steps, w.filled)
  }

  /** `checkAndAutofill(input)` with `AUTOFILL_RULES`. */
  function CheckAndAutofill(f: Field, labels: LabelIndex): (r: CheckResult)
    ensures r.filled <==> Eligible(f) && RuleMatches(Rule("s3-delete", "permanently delete"), f, labels)
    ensures r.filled ==> r.field.value == "permanently delete"
    ensures !r.filled ==> r.field == f && r.steps == []
  {
    CheckWith(AutofillRules, f, labels)
  }

  /** A check that changes nothing. */
  predicate Settled(rules: seq<Rule>, f: Field, labels: LabelIndex)
  {
    var r := CheckWith(rules, f, labels);
    r.field == f && r.steps == []
  }

  /** Repeated checks converge: the field a check leaves behind is settled. A
      filled field is no longer empty, so it is ineligible; a rule whose text
      is "" found the (empty) value already equal to it and wrote nothing. */
  lemma CheckConverges(rules: seq<Rule>, f: Field, labels: LabelIndex)
    ensures Settled(rules, CheckWith(rules, f, labels).field, labels)
  {
    var r := CheckWith(rules, f, labels);
    if r.field != f {
      assert !Eligible(r.field);
    }
  }

  /** A field that already holds any text, the rule text included, is
      reported ineligible: false, unchanged, no event. */
  lemma FilledFieldIsIgnored(rules: seq<Rule>, f: Field, labels: LabelIndex)
    requires f.value != ""
    ensures CheckWith(rules, f, labels) == CheckResult(f, [], false)
  {
  }

  /** The confirmation rule: an eligible field whose placeholder, label or
      labelled-by text contains "permanently delete" in any letter case is
      filled with "permanently delete" by the protocol, and nothing else of it
      changes. */
  lemma PermanentlyDeleteIsFilled(f: Field, labels: LabelIndex)
    requires Eligible(f)
    requires || IsSubstring("permanently delete", PlaceholderText(f))
             || IsSubstring("permanently delete", AriaLabelText(f))
             || IsSubstring("permanently delete", LabelledByText(f, labels))
    ensures CheckAndAutofill(f, labels).field == Written(f, "permanently delete")
    ensures CheckAndAutofill(f, labels).steps == WriteProtocol(f, "permanently delete")
    ensures CheckAndAutofill(f, labels).filled
  {
    assert RuleMatches(AutofillRules[0], f, labels);
  }

  /** Matching ignores letter case on the field's side: a field whose
      placeholder and label differ from another's only in the case of ASCII
      letters, and whose labelled-by reference is the same, matches the same
      rules. */
  lemma RuleMatchesIgnoresCase(rule: Rule, f: Field, g: Field, labels: LabelIndex)
    requires SameUpToCase(f.placeholder, g.placeholder)
    requires SameUpToCase(f.ariaLabel.GetOr(""), g.ariaLabel.GetOr(""))
    requires f.ariaLabelledBy == g.ariaLabelledBy
    ensures RuleMatches(rule, f, labels) <==> RuleMatches(rule, g, labels)
  {
    LowerIgnoresCase(f.placeholder, g.placeholder);
    LowerIgnoresCase(f.ariaLabel.GetOr(""), g.ariaLabel.GetOr(""));
    assert PlaceholderText(f) == PlaceholderText(g);
    assert AriaLabelText(f) == AriaLabelText(g);
  }

  /** Missing attributes and an unresolved labelled-by reference count as "":
      such a field matches only a rule whose text is "". */
  lemma MissingTextsCountAsEmpty(rule: Rule, f: Field, labels: LabelIndex)
    requires f.placeholder == "" && f.ariaLabel.None?
    requires f.ariaLabelledBy.None? || f.ariaLabelledBy.value !in labels
    ensures RuleMatches(rule, f, labels) <==> rule.requiredText == ""
  {
    IncludesInEmpty(rule.requiredText);
  }

  /** The rule text is compared as written: a rule holding an upper-case
      letter never matches, since all three texts are lower-cased. */
  lemma UpperCaseRuleNeverMatches(rule: Rule, f: Field, labels: LabelIndex)
    requires !IsLowerString(rule.requiredText)
    ensures !RuleMatches(rule, f, labels)
  {
    var ref := f.ariaLabelledBy.GetOr("");
    LowerIsLower(f.placeholder);
    LowerIsLower(f.ariaLabel.GetOr(""));
    if ref != "" && ref in labels {
      LowerIsLower(labels[ref]);
    }
    assert IsLowerString(LabelledByText(f, labels));
    if Includes(PlaceholderText(f), rule.requiredText) {
      IncludesOnlyLower(PlaceholderText(f), rule.requiredText);
    }
    if Includes(AriaLabelText(f), rule.requiredText) {
      IncludesOnlyLower(AriaLabelText(f), rule.requiredText);
    }
    if Includes(LabelledByText(f, labels), rule.requiredText) {
      IncludesOnlyLower(LabelledByText(f, labels), rule.requiredText);
    }
  }

  /** Rules after a matching one are never consulted: appending rules to a
      table in which some rule matches does not change the choice. */
  lemma {:induction false} FirstMatchAppend(rules: seq<Rule>, more: seq<Rule>, f: Field, labels: LabelIndex)
    requires AnyRuleMatches(rules, f, labels)
    ensures FirstMatch(rules + more, f, labels) == FirstMatch(rules, f, labels)
    decreases |rules|
  {
    assert (rules + more)[0] == rules[0];
    if !RuleMatches(rules[0], f, labels) {
      var k :| 0 <= k < |rules| && RuleMatches(rules[k], f, labels);
      assert rules[1..][k - 1] == rules[k];
      assert (rules + more)[1..] == rules[1..] + more;
      FirstMatchAppend(rules[1..], more, f, labels);
    }
  }

  /** Hence the outcome of the check does not change either. */
  lemma LaterRulesIgnored(rules: seq<Rule>, more: seq<Rule>, f: Field, labels: LabelIndex)
    requires AnyRuleMatches(rules, f, labels)
    ensures CheckWith(rules + more, f, labels) == CheckWith(rules, f, labels)
  {
    FirstMatchAppend(rules, more, f, labels);
    var k := FirstMatch(rules, f, labels).value;
    assert (rules + more)[k] == rules[k];
  }

  /** Two rules that both match: the one visited first supplies the text. */
  lemma EarlierRuleWins(first: Rule, second: Rule, f: Field, labels: LabelIndex)
    requires Eligible(f)
    requires RuleMatches(first, f, labels) && RuleMatches(second, f, labels)
    ensures CheckWith([first, second], f, labels).field.value == first.requiredText
  {
  }
}

=== FILE: scan.dfy ===
/** Which fields get checked, and what running the checks does to the page:
    the added-node selection of the mutation callback, the document-wide
    selection of the periodic scan and of the start-up sweep, and the checks
    run one after another over the page's fields. */
module Scan {
  import opened Text
  import opened Dom
  import opened Writer
  import opened Matcher

  /** A node of the page: a non-element node (text, comment), an `<input>` or
      `<textarea>` element standing for the field with that id, or any other
      element with its children. */
  datatype Node = NonElement | FieldNode(id: FieldId) | Element(children: seq<Node>)

  /** Ids of the field elements at `n` and below, in document order. */
  function FieldsIn(n: Node): seq<FieldId>
    decreases n
  {
    match n
    case NonElement => []
    case FieldNode(id) => [id]
    case Element(children) => FieldsInAll(children)
  }

  /** Ids of the field elements in a sequence of sibling trees, in document order. */
  function FieldsInAll(ns: seq<Node>): seq<FieldId>
    decreases ns
  {
    if |ns| == 0 then [] else FieldsIn(ns[0]) + FieldsInAll(ns[1..])
  }

  /** The elements `input[type="text"], input[type="password"], textarea`
      selects. In an HTML document the `type` value compares without regard to
      letter case; an input without a `type` attribute is not selected. */
  predicate IsScanKind(k: ElementKind): (r: bool)
    ensures r <==>
      || k.TextArea?
      || (k.typeAttribute.Some? && SameUpToCase(k.typeAttribute.value, "text"))
      || (k.typeAttribute.Some? && SameUpToCase(k.typeAttribute.value, "password"))
  {
    match k
    case TextArea => true
    case Input(t) =>
      if t.None? then false
      else
        LowerIgnoresCase(t.value, "text");
        LowerIgnoresCase(t.value, "password");
        assert Lower("text") == "text" && Lower("password") == "password";
        Lower(t.value) == "text" || Lower(t.value) == "password"
  }

  /** The field with this id exists and the selector picks it. */
  predicate IsScanCandidate(store: Store, id: FieldId)
  {
    id in store && IsScanKind(store[id].kind)
  }

  /** The ids the selector picks, order kept. */
  function KeepScanCandidates(store: Store, ids: seq<FieldId>): (r: seq<FieldId>)
    ensures forall id :: id in r <==> id in ids && IsScanCandidate(store, id)
    decreases |ids|
  {
    if |ids| == 0 then []
    else (if IsScanCandidate(store, ids[0]) then [ids[0]] else []) + KeepScanCandidates(store, ids[1..])
  }

  /** The fields the mutation callback checks for one added node: the node
      itself when it is an `INPUT` (of any type) or a `TEXTAREA`, and the
      selector's matches strictly below it. A non-element node is skipped. */
  function SelectOnAdd(store: Store, n: Node): (r: seq<FieldId>)
    ensures forall id :: id in r <==> id in FieldsIn(n) && (n.FieldNode? || IsScanCandidate(store, id))
  {
    match n
    case NonElement => []
    case FieldNode(id) => [id]
    case Element(children) => KeepScanCandidates(store, FieldsInAll(children))
  }

  /** The fields checked for the nodes added by a batch of mutation records,
      in delivery order. */
  function SelectOnMutations(store: Store, added: seq<Node>): (r: seq<FieldId>)
    ensures forall id :: id in r <==> exists j :: 0 <= j < |added| && id in SelectOnAdd(store, added[j])
    decreases |added|
  {
    if |added| == 0 then []
    else
      var rest := SelectOnMutations(store, added[1..]);
      assert forall j :: 1 <= j < |added| ==> added[j] == added[1..][j - 1];
      SelectOnAdd(store, added[0]) + rest
  }

  /** `document.querySelectorAll(...)` over the document's top-level nodes. */
  function DocumentCandidates(store: Store, document: seq<Node>): (r: seq<FieldId>)
    ensures forall id :: id in r <==> id in FieldsInAll(document) && IsScanCandidate(store, id)
  {
    KeepScanCandidates(store, FieldsInAll(document))
  }

  /** The ids whose element's `offsetParent` is not null, order kept. That
      leaves out fields that are not rendered, and also fields with
      `position: fixed`. */
  function KeepVisible(ids: seq<FieldId>, visible: set<FieldId>): (r: seq<FieldId>)
    ensures forall id :: id in r <==> id in ids && id in visible
    decreases |ids|
  {
    if |ids| == 0 then []
    else (if ids[0] in visible then [ids[0]] else []) + KeepVisible(ids[1..], visible)
  }

  /** Filtering a concatenation filters each part. */
  lemma {:induction false} KeepVisibleAppend(a: seq<FieldId>, b: seq<FieldId>, visible: set<FieldId>)
    ensures KeepVisible(a + b, visible) == KeepVisible(a, visible) + KeepVisible(b, visible)
    decreases |a|
  {
    if |a| == 0 {
      assert a + b == b;
    } else {
      assert (a + b)[0] == a[0];
      assert (a + b)[1..] == a[1..] + b;
      KeepVisibleAppend(a[1..], b, visible);
    }
  }

  /** The page after a batch of checks and the side effects they performed. */
  datatype ScanResult = ScanResult(store: Store, steps: seq<Step>)

  /** `checkAndAutofill` on the field with this id, if there is one. */
  function CheckAt(rules: seq<Rule>, store: Store, id: FieldId, labels: LabelIndex): (r: ScanResult)
    requires WellKeyed(store)
    ensures WellKeyed(r.store) && r.store.Keys == store.Keys
  {
    if id in store then
      var c := CheckWith(rules, store[id], labels);
      ScanResult(store[id := c.field], c.steps)
    else
      ScanResult(store, [])
  }

  /** `checkAndAutofill` run on each listed field in turn, each seeing the
      page its predecessors left. An id naming no field is skipped. */
  function RunChecks(rules: seq<Rule>, store: Store, ids: seq<FieldId>, labels: LabelIndex): (r: ScanResult)
    requires WellKeyed(store)
    ensures WellKeyed(r.store) && r.store.Keys == store.Keys
    ensures forall k :: k in store && k !in ids ==> r.store[k] == store[k]
    ensures forall s :: s in r.steps ==> s.target in ids
    decreases |ids|
  {
    if |ids| == 0 then ScanResult(store, [])
    else
      var one := CheckAt(rules, store, ids[0], labels);
      var rest := RunChecks(rules, one.store, ids[1..], labels);
      ScanResult(rest.store, one.steps + rest.steps)
  }

  /** The head and tail of a concatenation whose first part is not empty. */
  lemma IdsSplit(a: seq<FieldId>, b: seq<FieldId>)
    ensures |a| == 0 ==> a + b == b
    ensures |a| > 0 ==> (a + b)[0] == a[0] && (a + b)[1..] == a[1..] + b
  {
  }

  /** Concatenation of traces is associative. */
  lemma StepsAssociate(a: seq<Step>, b: seq<Step>, c: seq<Step>)
    ensures a + (b + c) == (a + b) + c
  {
  }

  /** Running two lists of checks one after the other is running their concatenation. */
  lemma {:induction false} RunChecksAppend(rules: seq<Rule>, store: Store, a: seq<FieldId>, b: seq<FieldId>, labels: LabelIndex)
    requires WellKeyed(store)
    ensures
      var first := RunChecks(rules, store, a, labels);
      var second := RunChecks(rules, first.store, b, labels);
      RunChecks(rules, store, a + b, labels) == ScanResult(second.store, first.steps + second.steps)
    decreases |a|
  {
    IdsSplit(a, b);
    if |a| > 0 {
      var one := CheckAt(rules, store, a[0], labels);
      var restA := RunChecks(rules, one.store, a[1..], labels);
      var second := RunChecks(rules, restA.store, b, labels);
      RunChecksAppend(rules, one.store, a[1..], b, labels);
      StepsAssociate(one.steps, restA.steps, second.steps);
    }
  }

  /** A check of a settled field changes nothing. */
  lemma CheckAtSettled(rules: seq<Rule>, store: Store, id: FieldId, labels: LabelIndex)
    requires WellKeyed(store)
    requires id in store ==> Settled(rules, store[id], labels)
    ensures CheckAt(rules, store, id, labels) == ScanResult(store, [])
  {
    if id in store {
      assert store[id := store[id]] == store;
    }
  }

  /** A settled field stays as it is and receives no step, whatever else is checked. */
  lemma {:induction false} SettledFieldUntouched(rules: seq<Rule>, store: Store, ids: seq<FieldId>, labels: LabelIndex, k: FieldId)
    requires WellKeyed(store)
    requires k in store && Settled(rules, store[k], labels)
    ensures RunChecks(rules, store, ids, labels).store[k] == store[k]
    ensures forall s :: s in RunChecks(rules, store, ids, labels).steps ==> s.target != k
    decreases |ids|
  {
    if |ids| > 0 {
      var one := CheckAt(rules, store, ids[0], labels);
      if ids[0] == k {
        CheckAtSettled(rules, store, k, labels);
      }
      assert one.store[k] == store[k];
      SettledFieldUntouched(rules, one.store, ids[1..], labels, k);
    }
  }

  /** After a batch of checks every checked field is settled. */
  lemma {:induction false} RunChecksSettles(rules: seq<Rule>, store: Store, ids: seq<FieldId>, labels: LabelIndex)
    requires WellKeyed(store)
    ensures forall k :: k in ids && k in store ==> Settled(rules, RunChecks(rules, store, ids, labels).store[k], labels)
    decreases |ids|
  {
    if |ids| > 0 {
      var r := RunChecks(rules, store, ids, labels);
      var one := CheckAt(rules, store, ids[0], labels);
      RunChecksSettles(rules, one.store, ids[1..], labels);
      if ids[0] in store {
        CheckConverges(rules, store[ids[0]], labels);
        SettledFieldUntouched(rules, one.store, ids[1..], labels, ids[0]);
      }
      forall k | k in ids && k in store
        ensures Settled(rules, r.store[k], labels)
      {
        if k != ids[0] {
          assert k in ids[1..];
        }
      }
    }
  }

  /** Checks of settled fields change nothing and dispatch nothing. */
  lemma {:induction false} RunChecksOnSettled(rules: seq<Rule>, store: Store, ids: seq<FieldId>, labels: LabelIndex)
    requires WellKeyed(store)
    requires forall k :: k in ids && k in store ==> Settled(rules, store[k], labels)
    ensures RunChecks(rules, store, ids, labels) == ScanResult(store, [])
    decreases |ids|
  {
    if |ids| > 0 {
      CheckAtSettled(rules, store, ids[0], labels);
      RunChecksOnSettled(rules, store, ids[1..], labels);
    }
  }

  /** The overlapping scans converge: repeating a batch of checks on the page
      it produced changes nothing and dispatches nothing. */
  lemma RunChecksTwice(rules: seq<Rule>, store: Store, ids: seq<FieldId>, labels: LabelIndex)
    requires WellKeyed(store)
    ensures
      var once := RunChecks(rules, store, ids, labels);
      RunChecks(rules, once.store, ids, labels) == ScanResult(once.store, [])
  {
    RunChecksSettles(rules, store, ids, labels);
    RunChecksOnSettled(rules, RunChecks(rules, store, ids, labels).store, ids, labels);
  }

  /** A listed field that was eligible and matched a rule ends up holding the
      first matching rule's text, however often it is listed. */
  lemma {:induction false} RunChecksFills(rules: seq<Rule>, store: Store, ids: seq<FieldId>, labels: LabelIndex, k: FieldId)
    requires WellKeyed(store)
    requires k in ids && k in store && Eligible(store[k]) && FirstMatch(rules, store[k], labels).Some?
    ensures RunChecks(rules, store, ids, labels).store[k].value == FirstMatchText(rules, store[k], labels)
    decreases |ids|
  {
    var one := CheckAt(rules, store, ids[0], labels);
    if ids[0] == k {
      CheckConverges(rules, store[k], labels);
      SettledFieldUntouched(rules, one.store, ids[1..], labels, k);
    } else {
      assert k in ids[1..];
      assert one.store[k] == store[k];
      RunChecksFills(rules, one.store, ids[1..], labels, k);
    }
  }

  /** A listed field that was eligible and matched a rule receives, across the
      whole batch, exactly one run of the write protocol with the first
      matching rule's text, however often it is listed; a rule whose text is ""
      gives it no step at all. */
  lemma {:induction false} RunChecksWritesOnce(rules: seq<Rule>, store: Store, ids: seq<FieldId>, labels: LabelIndex, k: FieldId)
    requires WellKeyed(store)
    requires k in ids && k in store && Eligible(store[k]) && FirstMatch(rules, store[k], labels).Some?
    ensures
      var text := FirstMatchText(rules, store[k], labels);
      StepsAt(RunChecks(rules, store, ids, labels).steps, k)
        == (if text == "" then [] else WriteProtocol(store[k], text))
    decreases |ids|
  {
    var one := CheckAt(rules, store, ids[0], labels);
    var rest := RunChecks(rules, one.store, ids[1..], labels);
    StepsAtAppend(one.steps, rest.steps, k);
    if ids[0] == k {
      StepsAtUniform(one.steps, k);
      CheckConverges(rules, store[k], labels);
      SettledFieldUntouched(rules, one.store, ids[1..], labels, k);
      StepsAtUniform(rest.steps, k);
      assert StepsAt(rest.steps, k) == [];
    } else {
      if ids[0] in store {
        assert forall s :: s in one.steps ==> s.target == ids[0];
      }
      StepsAtUniform(one.steps, k);
      assert k in ids[1..];
      assert one.store[k] == store[k];
      RunChecksWritesOnce(rules, one.store, ids[1..], labels, k);
    }
  }

  /** The events a filled field receives across a batch: one `input` then one
      `change`, both bubbling and cancelable, or none for a rule whose text is "". */
  lemma RunChecksNotifiesOnce(rules: seq<Rule>, store: Store, ids: seq<FieldId>, labels: LabelIndex, k: FieldId)
    requires WellKeyed(store)
    requires k in ids && k in store && Eligible(store[k]) && FirstMatch(rules, store[k], labels).Some?
    ensures
      Dispatched(StepsAt(RunChecks(rules, store, ids, labels).steps, k))
        == if FirstMatchText(rules, store[k], labels) == "" then []
           else [Dispatch(InputType, k, true, true), Dispatch(ChangeType, k, true, true)]
  {
    RunChecksWritesOnce(rules, store, ids, labels, k);
    WriteProtocolEvents(store[k], FirstMatchText(rules, store[k], labels));
  }

  /** The field would be written by a check. */
  predicate WouldFill(rules: seq<Rule>, f: Field, labels: LabelIndex)
  {
    Eligible(f) && AnyRuleMatches(rules, f, labels)
  }

  /** Only fields that were eligible and matched a rule change or receive a
      step: every other field stays as it was and gets no event. */
  lemma {:induction false} OnlyMatchingFieldsChange(rules: seq<Rule>, store: Store, ids: seq<FieldId>, labels: LabelIndex)
    requires WellKeyed(store)
    ensures forall k :: k in store && RunChecks(rules, store, ids, labels).store[k] != store[k]
              ==> WouldFill(rules, store[k], labels)
    ensures forall s :: s in RunChecks(rules, store, ids, labels).steps
              ==> s.target in store && WouldFill(rules, store[s.target], labels)
    decreases |ids|
  {
    if |ids| > 0 {
      var r := RunChecks(rules, store, ids, labels);
      var id := ids[0];
      var one := CheckAt(rules, store, id, labels);
      var rest := RunChecks(rules, one.store, ids[1..], labels);
      OnlyMatchingFieldsChange(rules, one.store, ids[1..], labels);
      // a field the first check changed is no longer eligible
      assert id in store && one.store[id] != store[id] ==> !Eligible(one.store[id]) && one.steps != [];
      forall k | k in store && r.store[k] != store[k]
        ensures WouldFill(rules, store[k], labels)
      {
      }
      forall s | s in r.steps
        ensures s.target in store && WouldFill(rules, store[s.target], labels)
      {
        if s in one.steps {
          assert s.target == id && id in store;
        } else {
          assert s in rest.steps;
        }
      }
    }
  }

  /** A prefix one longer is the prefix and the next element. */
  lemma PrefixStep(ids: seq<FieldId>, i: nat)
    requires i < |ids|
    ensures ids[..i + 1] == ids[..i] + [ids[i]]
  {
  }

  /** Filtering a single id keeps it exactly when it is visible. */
  lemma KeepVisibleOne(id: FieldId, visible: set<FieldId>)
    ensures KeepVisible([id], visible) == if id in visible then [id] else []
  {
    assert [id][1..] == [];
  }

  /** A batch of one check is that check. */
  lemma RunChecksOne(rules: seq<Rule>, store: Store, id: FieldId, labels: LabelIndex)
    requires WellKeyed(store)
    ensures RunChecks(rules, store, [id], labels) == CheckAt(rules, store, id, labels)
  {
    var one := CheckAt(rules, store, id, labels);
    assert [id][1..] == [];
    assert one.steps + [] == one.steps;
  }

  /** One more candidate for the periodic scan: a visible field with an empty
      value is checked; any other candidate leaves the page as it is. */
  lemma TickStep(rules: seq<Rule>, store: Store, candidates: seq<FieldId>, i: nat, labels: LabelIndex, visible: set<FieldId>)
    requires WellKeyed(store)
    requires i < |candidates|
    ensures
      var id := candidates[i];
      var before := RunChecks(rules, store, KeepVisible(candidates[..i], visible), labels);
      var after := RunChecks(rules, store, KeepVisible(candidates[..i + 1], visible), labels);
      if id in before.store && id in visible && before.store[id].value == "" then
        var c := CheckWith(rules, before.store[id], labels);
        after == ScanResult(before.store[id := c.field], before.steps + c.steps)
      else
        after == before
  {
    var id := candidates[i];
    var done := KeepVisible(candidates[..i], visible);
    var before := RunChecks(rules, store, done, labels);
    PrefixStep(candidates, i);
    KeepVisibleAppend(candidates[..i], [id], visible);
    KeepVisibleOne(id, visible);
    RunChecksAppend(rules, store, done, KeepVisible([id], visible), labels);
    if id in visible {
      RunChecksOne(rules, before.store, id, labels);
      if id in before.store && before.store[id].value != "" {
        CheckAtSettled(rules, before.store, id, labels);
      }
    } else {
      assert done + [] == done;
      assert before.steps + [] == before.steps;
    }
  }

  /** One tick of the periodic scan: each selected field, in document order,
      is checked when its `offsetParent` is not null and its value is empty at
      the moment the loop reaches it. */
  method PeriodicTick(rules: seq<Rule>, store: Store, document: seq<Node>, labels: LabelIndex, visible: set<FieldId>)
    returns (result: Store, steps: seq<Step>)
    requires WellKeyed(store)
    ensures ScanResult(result, steps)
         == RunChecks(rules, store, KeepVisible(DocumentCandidates(store, document), visible), labels)
  {
    var candidates := DocumentCandidates(store, document);
    result, steps := store, [];
    var i := 0;
    while i < |candidates|
      invariant 0 <= i <= |candidates|
      invariant ScanResult(result, steps) == RunChecks(rules, store, KeepVisible(candidates[..i], visible), labels)
    {
      var id := candidates[i];
      TickStep(rules, store, candidates, i, labels, visible);
      if id in result && id in visible && result[id].value == "" {
        var c := CheckWith(rules, result[id], labels);
        result := result[id := c.field];
        steps := steps + c.steps;
      }
      i := i + 1;
    }
    assert candidates[..i] == candidates;
  }

  /** A tick fills every selected field whose `offsetParent` is not null, if
      it was eligible and matched a rule, with the first matching rule's text,
      and that field gets one `input` then one `change` event (none for a rule
      whose text is ""). */
  lemma PeriodicTickFills(rules: seq<Rule>, store: Store, document: seq<Node>, labels: LabelIndex, visible: set<FieldId>, k: FieldId)
    requires WellKeyed(store)
    requires k in FieldsInAll(document) && IsScanCandidate(store, k) && k in visible
    requires Eligible(store[k]) && FirstMatch(rules, store[k], labels).Some?
    ensures
      var r := RunChecks(rules, store, KeepVisible(DocumentCandidates(store, document), visible), labels);
      && r.store[k].value == FirstMatchText(rules, store[k], labels)
      && Dispatched(StepsAt(r.steps, k))
           == if FirstMatchText(rules, store[k], labels) == "" then []
              else [Dispatch(InputType, k, true, true), Dispatch(ChangeType, k, true, true)]
  {
    var ids := KeepVisible(DocumentCandidates(store, document), visible);
    RunChecksFills(rules, store, ids, labels, k);
    RunChecksNotifiesOnce(rules, store, ids, labels, k);
  }

  /** The sweep a second after start-up: every selected field, visible or not. */
  function StartupSweep(rules: seq<Rule>, store: Store, document: seq<Node>, labels: LabelIndex): (r: ScanResult)
    requires WellKeyed(store)
    ensures r.store.Keys == store.Keys
    ensures forall k :: k in store && r.store[k] != store[k] ==> k in FieldsInAll(document) && IsScanCandidate(store, k)
  {
    RunChecks(rules, store, DocumentCandidates(store, document), labels)
  }

  /** The checks the mutation callback schedules for a batch of added nodes,
      run in the order they were scheduled. */
  function OnNodesAdded(rules: seq<Rule>, store: Store, added: seq<Node>, labels: LabelIndex): (r: ScanResult)
    requires WellKeyed(store)
    ensures r.store.Keys == store.Keys
    ensures forall k :: k in store && r.store[k] != store[k] ==>
              exists j :: 0 <= j < |added| && k in SelectOnAdd(store, added[j])
  {
    RunChecks(rules, store, SelectOnMutations(store, added), labels)
  }

  /** The start-up sweep fills every selected field that was eligible and
      matched a rule with the first matching rule's text, and that field gets
      one `input` then one `change` event (none for a rule whose text is ""). */
  lemma StartupSweepFills(rules: seq<Rule>, store: Store, document: seq<Node>, labels: LabelIndex, k: FieldId)
    requires WellKeyed(store)
    requires k in FieldsInAll(document) && IsScanCandidate(store, k)
    requires Eligible(store[k]) && FirstMatch(rules, store[k], labels).Some?
    ensures
      var r := StartupSweep(rules, store, document, labels);
      && r.store[k].value == FirstMatchText(rules, store[k], labels)
      && Dispatched(StepsAt(r.steps, k))
           == if FirstMatchText(rules, store[k], labels) == "" then []
              else [Dispatch(InputType, k, true, true), Dispatch(ChangeType, k, true, true)]
  {
    var ids := DocumentCandidates(store, document);
    RunChecksFills(rules, store, ids, labels, k);
    RunChecksNotifiesOnce(rules, store, ids, labels, k);
  }

  /** The checks scheduled for added nodes fill every field an added node
      contributes, if it was eligible and matched a rule, with the first
      matching rule's text, and that field gets one `input` then one `change`
      event (none for a rule whose text is ""), even when several added nodes
      contribute it. A file input is left out: an added `INPUT` of that type
      is checked too, but its value setter refuses the text. */
  lemma OnNodesAddedFills(rules: seq<Rule>, store: Store, added: seq<Node>, labels: LabelIndex, k: FieldId, j: nat)
    requires WellKeyed(store)
    requires j < |added| && k in SelectOnAdd(store, added[j])
    requires k in store && Eligible(store[k]) && FirstMatch(rules, store[k], labels).Some?
    requires !IsFileInput(store[k].kind)
    ensures
      var r := OnNodesAdded(rules, store, added, labels);
      && r.store[k].value == FirstMatchText(rules, store[k], labels)
      && Dispatched(StepsAt(r.steps, k))
           == if FirstMatchText(rules, store[k], labels) == "" then []
              else [Dispatch(InputType, k, true, true), Dispatch(ChangeType, k, true, true)]
  {
    var ids := SelectOnMutations(store, added);
    RunChecksFills(rules, store, ids, labels, k);
    RunChecksNotifiesOnce(rules, store, ids, labels, k);
  }
}

=== FILE: text.dfy ===
/** String helpers the matcher relies on: lower-casing (ASCII only) and the
    `includes` substring test of JavaScript strings. */
module Text {

  /** Lower-cases one ASCII letter; every other character is returned unchanged. */
  function LowerChar(c: char): char
  {
    if 'A' <= c <= 'Z' then (c as int + 32) as char else c
  }

  /** True if lower-casing leaves every character of `s` alone. */
  predicate IsLowerString(s: string)
  {
    forall i :: 0 <= i < |s| ==> LowerChar(s[i]) == s[i]
  }

  /** `toLowerCase`, restricted to ASCII letters: the result is lower case,
      and a text already in lower case is returned as it is. */
  function Lower(s: string): (r: string)
    ensures IsLowerString(r)
    ensures IsLowerString(s) ==> r == s
  {
    seq(|s|, i requires 0 <= i < |s| => LowerChar(s[i]))
  }

  /** A lower-cased string is lower case, and lower-casing it again changes nothing. */
  lemma LowerIsLower(s: string)
    ensures IsLowerString(Lower(s))
    ensures Lower(Lower(s)) == Lower(s)
  {
  }

  /** `a` and `b` differ at most in the letter case of ASCII letters. */
  ghost predicate SameUpToCase(a: string, b: string)
  {
    |a| == |b| && forall i :: 0 <= i < |a| ==> LowerChar(a[i]) == LowerChar(b[i])
  }

  /** Lower-casing identifies exactly the texts that differ only in the
      letter case of ASCII letters. */
  lemma LowerIgnoresCase(a: string, b: string)
    ensures Lower(a) == Lower(b) <==> SameUpToCase(a, b)
  {
    if Lower(a) == Lower(b) {
      assert |a| == |Lower(a)| == |Lower(b)| == |b|;
      forall i | 0 <= i < |a|
        ensures LowerChar(a[i]) == LowerChar(b[i])
      {
        assert Lower(a)[i] == Lower(b)[i];
      }
    }
  }

  /** `needle` occurs in `hay` starting at offset `i`. */
  predicate OccursAt(hay: string, needle: string, i: int)
  {
    0 <= i && i + |needle| <= |hay| && hay[i..i + |needle|] == needle
  }

  /** Reference definition of substring containment. */
  ghost predicate IsSubstring(needle: string, hay: string)
  {
    exists i :: OccursAt(hay, needle, i)
  }

  /** A slice of the tail is the slice of the text one further on. */
  lemma TailSlice(hay: string, i: nat, n: nat)
    requires i + n < |hay|
    ensures hay[1..][i..i + n] == hay[i + 1..i + 1 + n]
  {
  }

  /** A needle that is not a prefix of a non-empty text occurs in it exactly
      when it occurs in the text's tail. */
  lemma SubstringOfTail(needle: string, hay: string)
    requires |hay| > 0 && !(needle <= hay)
    ensures IsSubstring(needle, hay) <==> IsSubstring(needle, hay[1..])
  {
    if IsSubstring(needle, hay[1..]) {
      var i :| OccursAt(hay[1..], needle, i);
      TailSlice(hay, i, |needle|);
      assert OccursAt(hay, needle, i + 1);
    }
    if IsSubstring(needle, hay) {
      var i :| OccursAt(hay, needle, i);
      assert i != 0;
      TailSlice(hay, i - 1, |needle|);
      assert OccursAt(hay[1..], needle, i - 1);
    }
  }

  /** `hay.includes(needle)`: tries every offset from the left. The empty
      needle is contained in every string, the empty string contains only it. */
  function Includes(hay: string, needle: string): (r: bool)
    ensures r <==> IsSubstring(needle, hay)
    decreases |hay|
  {
    if needle <= hay then
      assert OccursAt(hay, needle, 0);
      true
    else if |hay| == 0 then
      false
    else
      SubstringOfTail(needle, hay);
      Includes(hay[1..], needle)
  }

  /** Only the empty string occurs in the empty string. */
  lemma IncludesInEmpty(needle: string)
    ensures Includes("", needle) <==> needle == ""
  {
    if Includes("", needle) {
      var i :| OccursAt("", needle, i);
    }
  }

  /** Every substring of a lower-case string is lower case: a needle holding an
      upper-case letter is never found in a lower-cased text. */
  lemma IncludesOnlyLower(hay: string, needle: string)
    requires IsLowerString(hay)
    requires Includes(hay, needle)
    ensures IsLowerString(needle)
  {
    var i :| OccursAt(hay, needle, i);
    forall j | 0 <= j < |needle|
      ensures LowerChar(needle[j]) == needle[j]
    {
      assert needle[j] == hay[i..i + |needle|][j] == hay[i + j];
    }
  }
}

=== FILE: writer.dfy ===
/** The value writer: `autofillField(input, text)`. */
module Writer {
  import opened Text
  import opened Dom

  /** The new state of the field (`None` for a null reference), the side
      effects performed, and the returned boolean. */
  datatype WriteResult = WriteResult(field: Option<Field>, steps: seq<Step>, filled: bool)

  /** The guard clause: a disabled or read-only field is never written, and a
      field that already holds the text needs no write. */
  predicate Refuses(f: Field, text: string): (r: bool)
    // a field the matcher deems eligible is refused only the empty text
    ensures Eligible(f) ==> (r <==> text == "")
    // a field already holding the text is always refused
    ensures f.value == text ==> r
  {
    f.disabled || f.readOnly || f.value == text
  }

  /** The two guards agree: a field is eligible for a check exactly when the
      writer refuses it nothing but the empty text. */
  lemma EligibleIffOnlyEmptyRefused(f: Field)
    ensures Eligible(f) <==> forall t :: (Refuses(f, t) <==> t == "")
  {
    if !Eligible(f) {
      if f.disabled || f.readOnly {
        assert Refuses(f, "x");
      } else {
        assert Refuses(f, f.value);
      }
    }
  }

  /** The write-then-notify sequence: primitive write; when a value tracker is
      present, reset it and write again; then an `input` and a `change` event,
      both bubbling, cancelable and targeted at the field. */
  function WriteProtocol(f: Field, text: string): (r: seq<Step>)
    // one write, or write, reset and write again when a tracker is present
    ensures |r| == if f.tracker.Some? then 5 else 3
    ensures r[0] == SetValue(f.id, text)
    ensures f.tracker.Some? ==> r[1] == ResetTracker(f.id) && r[2] == SetValue(f.id, text)
    // then `input` and `change`, last
    ensures r[|r| - 2] == Dispatch(InputType, f.id, true, true)
    ensures r[|r| - 1] == Dispatch(ChangeType, f.id, true, true)
  {
    [SetValue(f.id, text)]
    + (if f.tracker.Some? then [ResetTracker(f.id), SetValue(f.id, text)] else [])
    + [Dispatch(InputType, f.id, true, true), Dispatch(ChangeType, f.id, true, true)]
  }

  /** The field after the write protocol. The tracker reset leaves the tracked
      value at "", and the second primitive write does not pass through the
      tracker, so it stays there. */
  function Written(f: Field, text: string): Field
  {
    f.(value := text, tracker := if f.tracker.Some? then Some("") else None)
  }

  /** `autofillField(input, text)`, with the value setter applicable to every
      kind of text field. */
  function AutofillField(input: Option<Field>, text: string): (r: WriteResult)
    // a null reference: nothing happens and the answer is false
    ensures input.None? ==> r == WriteResult(None, [], false)
    // the guard: no write, no event, and the answer is whether the value is already the text
    ensures input.Some? && Refuses(input.value, text) ==>
      r == WriteResult(input, [], input.value.value == text)
    // the write: value is the text, tracker reset, nothing else changes, protocol performed
    ensures input.Some? && !Refuses(input.value, text) ==>
      && r.filled
      && r.field.Some?
      && r.field.value.value == text
      && SameAttributes(input.value, r.field.value)
      && (r.field.value.tracker.Some? <==> input.value.tracker.Some?)
      && (r.field.value.tracker.Some? ==> r.field.value.tracker.value == "")
      && r.steps == WriteProtocol(input.value, text)
    // in the model, where nothing else writes the field, the answer is whether it now holds the text
    ensures r.filled <==> r.field.Some? && r.field.value.value == text
  {
    match input
    case None => WriteResult(None, [], false)
    case Some(f) =>
      if Refuses(f, text) then WriteResult(input, [], f.value == text)
      else WriteResult(Some(Written(f, text)), WriteProtocol(f, text), true)
  }

  /** Idempotence: a second identical call writes nothing, dispatches nothing
      and gives the same answer. */
  lemma AutofillFieldIdempotent(input: Option<Field>, text: string)
    ensures
      var first := AutofillField(input, text);
      AutofillField(first.field, text) == WriteResult(first.field, [], first.filled)
  {
  }

  /** When the protocol runs, exactly two events are dispatched: `input`
      then `change`, both at the field. */
  lemma WriteProtocolEvents(f: Field, text: string)
    ensures Dispatched(WriteProtocol(f, text))
         == [Dispatch(InputType, f.id, true, true), Dispatch(ChangeType, f.id, true, true)]
  {
    var events := [Dispatch(InputType, f.id, true, true), Dispatch(ChangeType, f.id, true, true)];
    var writes := [SetValue(f.id, text)]
      + (if f.tracker.Some? then [ResetTracker(f.id), SetValue(f.id, text)] else []);
    assert WriteProtocol(f, text) == writes + events;
    DispatchedAppend(writes, events);
    var set1 := [SetValue(f.id, text)];
    assert set1[1..] == [] && Dispatched(set1) == [];
    if f.tracker.Some? {
      var reset := [ResetTracker(f.id)];
      assert reset[1..] == [] && Dispatched(reset) == [];
      DispatchedAppend(set1, reset + set1);
      DispatchedAppend(reset, set1);
      assert writes == set1 + (reset + set1);
    } else {
      assert writes == set1;
    }
    var change := [Dispatch(ChangeType, f.id, true, true)];
    assert events[1..] == change && change[1..] == [];
    assert Dispatched(change) == change;
    assert Dispatched(events) == [events[0]] + Dispatched(change);
  }

  /** The protocol starts with a value write, touches only the field, and
      dispatches nothing before its last value write. */
  lemma WriteProtocolOrder(f: Field, text: string)
    ensures WriteProtocol(f, text)[0] == SetValue(f.id, text)
    ensures forall s :: s in WriteProtocol(f, text) ==> s.target == f.id
    ensures forall i, j :: 0 <= i < j < |WriteProtocol(f, text)| && WriteProtocol(f, text)[i].Dispatch?
              ==> WriteProtocol(f, text)[j].Dispatch?
  {
    var p := WriteProtocol(f, text);
    if f.tracker.Some? {
      assert p == [SetValue(f.id, text), ResetTracker(f.id), SetValue(f.id, text),
                   Dispatch(InputType, f.id, true, true), Dispatch(ChangeType, f.id, true, true)];
    } else {
      assert p == [SetValue(f.id, text),
                   Dispatch(InputType, f.id, true, true), Dispatch(ChangeType, f.id, true, true)];
    }
  }

  /** The error an operation can throw. */
  datatype Outcome = Returned(result: WriteResult) | Threw(error: string)

  /** An `<input>` in the File Upload state: its `type` attribute is "file"
      in any letter case. */
  predicate IsFileInput(k: ElementKind)
  {
    k.Input? && k.typeAttribute.Some? && Lower(k.typeAttribute.value) == "file"
  }

  /** `autofillField` as written: it always calls the value setter of
      `HTMLInputElement.prototype`. Its receiver check throws a `TypeError`
      when the element is a `<textarea>`, and an `<input type="file">` throws
      an `InvalidStateError` for any text but "". Both happen before anything
      is written. */
  function AutofillFieldAsWritten(input: Option<Field>, text: string): (r: Outcome)
    ensures r.Threw? <==>
      && input.Some? && !Refuses(input.value, text)
      && (input.value.kind.TextArea? || (IsFileInput(input.value.kind) && text != ""))
    ensures r.Returned? ==> r.result == AutofillField(input, text)
  {
    match input
    case None => Returned(WriteResult(None, [], false))
    case Some(f) =>
      if Refuses(f, text) then Returned(WriteResult(input, [], f.value == text))
      else if f.kind.TextArea? then Threw("TypeError: Illegal invocation")
      else if IsFileInput(f.kind) && text != "" then Threw("InvalidStateError")
      else Returned(WriteResult(Some(Written(f, text)), WriteProtocol(f, text), true))
  }

  /** An empty, enabled `<textarea>`: the write throws and the field stays
      empty, while the corrected writer fills it. */
  lemma TextAreaWriteThrows()
    ensures
      var f := Field(7, TextArea, false, false, "", "type permanently delete to confirm", None, None, None);
      && AutofillFieldAsWritten(Some(f), "permanently delete").Threw?
      && AutofillField(Some(f), "permanently delete").field == Some(f.(value := "permanently delete"))
  {
  }

  /** An empty, enabled `<input type="File">` labelled "permanently delete",
      which the mutation path hands to the writer: the write throws. */
  lemma FileInputWriteThrows()
    ensures
      var f := Field(3, Input(Some("File")), false, false, "", "", Some("permanently delete"), None, None);
      && IsFileInput(f.kind)
      && AutofillFieldAsWritten(Some(f), "permanently delete").Threw?
  {
    assert Lower("File") == "file";
  }
}
